=== FILE: README.md ===
# Shizuku wireless-ADB auto-start, modelled in Dafny

This project models how the Shizuku manager starts its privileged server on boot
without root. Two pieces are modelled:

- **Boot dispatch.** `BootCompleteReceiver` handles a boot broadcast and picks one of
  three actions. It can run the root data command, start the wireless-ADB
  self-starter service, or do nothing.
- **The self-starter service.** `SelfStarterService` waits for a Wi-Fi network and
  then writes the secure settings it needs. It finds the wireless-debugging port
  (mDNS from Android R on, a static system port before that). It then runs the starter
  script through an ADB client. When the first script is refused with a
  permission-denied message, it retries once with the data-directory script. On
  teardown it writes the saved list of enabled accessibility services back and
  switches wireless debugging off.

The model is functional. Every platform query (uid, launch mode, ping, root access,
permission, SDK level, static port) is an input. Each callback is a pure step on a
`Service` record. The ADB client is opaque: a client run is given as the output chunks
it delivered, plus the failure that ended it, if any.

Files and modules:

- `strings.dfy` (`Strings`): `Option`, chunk concatenation, and substring search with
  the meaning of Kotlin's `contains`, proved against an index-based definition.
- `boot_complete_receiver.dfy` (`BootCompleteReceiver`): `onReceive` and `start` as one
  decision function.
- `starter_job.dfy` (`StarterJob`): `postResult` and the `startAdb` job. This covers
  the log `sb`, the posted results, the key failure, the marker check and the single
  fallback.
- `self_starter_service.dfy` (`SelfStarterService`): the service state and its
  callbacks (`onAvailable`, the port observer, `adbPortListener`, `onDestroy`). Each
  callback is modelled as written, plus snapshot-once versions of the two callbacks
  that handle the snapshot (see Findings).
- `starter_lifecycle.dfy` (`StarterLifecycle`): the service as an event machine. It
  runs either the callbacks as written (`AsWritten`) or the snapshot-once versions
  (`SnapshotOnce`). It holds the invariants over any event sequence for both, the
  cleanup theorem for the snapshot-once versions, and the lemmas behind the Findings.

Modelling choices worth knowing:

- **Settings.** The settings form one map from name to stored text; an integer setting
  holds its decimal text. An absent key is what `getString` reports as null. The
  service is assumed to be the only writer of these keys while it runs.
- **Null setting at capture.** `accessibility_service` is a non-null Kotlin `String`.
  Reading a null `ENABLED_ACCESSIBILITY_SERVICES` into it therefore throws. This
  happens after `adb_wifi_enabled` was set to 0. The model marks the service `crashed`,
  and a crashed service ignores all later events.
- **Discovery never created.** From Android R on, `onDestroy` calls `adbMdns.stop()`.
  If no network callback ever created `adbMdns`, that call throws. This happens after
  the settings writes, and the model marks this case `crashed` too.
- **Background job.** The job launched by `startAdb` runs to completion at the moment
  it is launched. It touches only the log, the posted results and `stopSelf`, never the
  settings.
- **Package name.** `BuildConfig.APPLICATION_ID` is not part of this model. It is taken
  to be `moe.shizuku.privileged.api`, the package in the accessibility component that
  `onAvailable` writes (SelfStarterService.kt:69). The permission-denied marker is built
  from it.
- **Posted results.** Each posted result records the log as it stood when it was
  posted. In the source every posted result holds the same `StringBuilder`, so an
  observer actually reads the current log.

Behaviour of the code worth knowing:

- The permission-denied marker is searched once, after the primary client has
  finished. It is searched in the whole log: the header, earlier jobs' text and failure
  stack traces all count.
- The port observer is never removed after the first port. Every later valid port
  starts another job while the server does not answer a ping.
- The static-port branch only checks `port > 0`. It has no upper bound.
- Teardown sets `adb_wifi_enabled` to 0 rather than restoring its earlier value.
  `accessibility_enabled` stays `"1"`.

## Model

| member | source | states |
|---|---|---|
| `BootCompleteReceiver.OnReceive` | manager/src/main/java/moe/shizuku/manager/receiver/BootCompleteReceiver.kt:24-51 | Actions other than the two boot actions yield no action. A non-primary uid, a server that answers a ping, LOCKED_BOOT_COMPLETED in ADB mode, and an unknown launch mode also yield no action. Root mode never starts the self-starter service. The self-starter service is started iff the action is BOOT_COMPLETED, the uid is primary, the mode is ADB, the ping fails, root is absent, the wireless preference is on and the permission is granted. The root data command runs iff the action is a boot action, the uid is primary, the mode is ROOT (or ADB with BOOT_COMPLETED), the ping fails and root is available. |
| `BootCompleteReceiver.Start` | manager/src/main/java/moe/shizuku/manager/receiver/BootCompleteReceiver.kt:53-75 | With root: always the root data command. Without root: the self-starter service iff the wireless flag and the permission both hold, otherwise nothing. |
| `BootCompleteReceiver.TruncDiv` | manager/src/main/java/moe/shizuku/manager/receiver/BootCompleteReceiver.kt:30 | Kotlin `Int` division truncates toward zero. The quotient times the divisor is the largest multiple not above a non-negative dividend, and the smallest multiple not below a negative one. |
| `BootCompleteReceiver.SecondaryUserIffUidRange` | manager/src/main/java/moe/shizuku/manager/receiver/BootCompleteReceiver.kt:30 | The test `uid / 100000 > 0` holds exactly for uids of at least 100000. Negative uids count as the primary user. |
| `BootCompleteReceiver.RootModeIgnoresWirelessSettings` | manager/src/main/java/moe/shizuku/manager/receiver/BootCompleteReceiver.kt:33-39 | In ROOT mode the outcome does not depend on the wireless preference or the permission, because `start` gets `false`. |
| `BootCompleteReceiver.RootAccessUnifiesModes` | manager/src/main/java/moe/shizuku/manager/receiver/BootCompleteReceiver.kt:71-74 | With root access and BOOT_COMPLETED, ROOT mode and ADB mode give the same action. |
| `BootCompleteReceiver.LockedBootDiffersOnlyInAdbMode` | manager/src/main/java/moe/shizuku/manager/receiver/BootCompleteReceiver.kt:33-49 | Outside ADB mode, LOCKED_BOOT_COMPLETED and BOOT_COMPLETED give the same action. |
| `Strings.Contains` | manager/src/main/java/moe/shizuku/manager/starter/SelfStarterService.kt:169 | The substring search used by `sb.contains` is true exactly when the marker occurs at some index of the log. |
| `Strings.ContainsAppend` | manager/src/main/java/moe/shizuku/manager/starter/SelfStarterService.kt:169 | A marker that occurs in the log still occurs after more text is appended. |
| `StarterJob.PostResult` | manager/src/main/java/moe/shizuku/manager/starter/SelfStarterService.kt:131-136 | Posting adds exactly one result and keeps the earlier ones. The new result carries the current log. It is a success iff no throwable is given; otherwise it is an error carrying that throwable. |
| `StarterJob.DeliverChunks` | manager/src/main/java/moe/shizuku/manager/starter/SelfStarterService.kt:155-158 | Delivered chunks are appended in delivery order, and the log becomes the old log plus their concatenation. One success is posted per chunk, and the k-th post carries the log up to and including chunk k. |
| `StarterJob.RunClient` | manager/src/main/java/moe/shizuku/manager/starter/SelfStarterService.kt:153-164 | A client run appends its chunks, then on failure a newline and the stack trace, and nothing already in the log is removed. Each chunk's post is a success. A failed run ends with an error post that carries the failure and the full log. When the last earlier post was a success carrying the current log, the run leaves its own outcome (success or its failure) as the last post, carrying the new log. |
| `StarterJob.Job` | manager/src/main/java/moe/shizuku/manager/starter/SelfStarterService.kt:144-191 | On a key failure: no client is created and no fallback runs. The log gains a newline and the trace, one error wrapping `AdbKeyException` is posted, and `stopSelf` is skipped. Otherwise: `stopSelf` is called, and the fallback runs iff the log after the primary run contains the marker. The log is the old log, then the primary text, then (only on fallback) the diagnostic lines and the secondary text. One client is created, or two with the fallback. The last post is the job's outcome, carrying the final log: the wrapped key error, or else the status of the last client run (the secondary one after a fallback). |
| `StarterJob.StartAdb` | manager/src/main/java/moe/shizuku/manager/starter/SelfStarterService.kt:138-192 | The log is only extended, and it continues with the header "Starting with wireless adb...\n\n", whose success is posted first. The fallback runs iff a key was created and the log after the header and the primary run contains the marker. A key failure means no fallback and no client. `stopSelf` is called iff the key was created. At most two clients are created. The last post is the job's outcome carrying the final log: the wrapped key error, or the failure of the last client run (the secondary one after a fallback), or a success. |
| `StarterJob.MonotoneStartAdb` | manager/src/main/java/moe/shizuku/manager/starter/SelfStarterService.kt:138-192 | Across a whole job, every posted log is a prefix of every later posted log and of the final log. |
| `StarterJob.KeyFailureIgnoresClients` | manager/src/main/java/moe/shizuku/manager/starter/SelfStarterService.kt:145-152 | When key creation fails, the client runs do not matter: the job returns before any client is created. |
| `StarterJob.NoMarkerIgnoresSecondary` | manager/src/main/java/moe/shizuku/manager/starter/SelfStarterService.kt:169-189 | Without the marker after the primary run, the secondary run is never consulted. |
| `StarterJob.EarlierMarkerForcesFallback` | manager/src/main/java/moe/shizuku/manager/starter/SelfStarterService.kt:169 | The whole log is searched, so a marker left by an earlier job makes every later job with a key fall back. |
| `StarterJob.PlainSuccessScenario` | manager/src/main/java/moe/shizuku/manager/starter/SelfStarterService.kt:141-159 | A fresh log with primary output "ok\n" ends as "Starting with wireless adb...\n\nok\n". Two successes are posted, there is no fallback, one client is created and `stopSelf` is called. |
| `StarterJob.FallbackScenario` | manager/src/main/java/moe/shizuku/manager/starter/SelfStarterService.kt:169-189 | Primary output containing the marker leads to the fallback. The log is the header, the primary output, the diagnostic lines and the secondary text, in that order. |
| `SelfStarterService.StartAdbStep` | manager/src/main/java/moe/shizuku/manager/starter/SelfStarterService.kt:138-192 | A `startAdb` call leaves the settings and the snapshot untouched. It records its port and counts one job. It counts a fallback exactly when the key exists and the log after the header and the primary run contains the marker. It only extends the log, starting with the header. The service is stopped afterwards iff it was stopped before or the key was created. |
| `SelfStarterService.AdbPortListener` | manager/src/main/java/moe/shizuku/manager/starter/SelfStarterService.kt:113-129 | From R on: discovery starts listening and no job starts yet. Nothing else changes. Before R, a positive static port runs the job on the given key and client runs. The port is recorded and one job is counted. The log and posts are the job's. The service is stopped iff the key was created, and a fallback is counted iff the job fell back. A non-positive port changes nothing. The settings are never touched. |
| `SelfStarterService.EnableWirelessAdb` | manager/src/main/java/moe/shizuku/manager/starter/SelfStarterService.kt:57-81 | After the writes, the snapshot holds the saved value. The accessibility list is this app's component, ":" and the saved value. `accessibility_enabled` is "1", `adb_wifi_enabled` ends at "1", and every other setting is kept. The port listener then runs (line 76). From R on, discovery listens and no job starts. Before R, a positive static port runs the job, whose log, posts, `stopSelf` and fallback are recorded. |
| `SelfStarterService.OnAvailable` | manager/src/main/java/moe/shizuku/manager/starter/SelfStarterService.kt:54-86 | Without the permission: no setting is written and the service stops. With it and a null list: `adb_wifi_enabled` is set to "0" and the callback throws. With it and a list: the snapshot takes the old list, the new list is the component, ":" and the old list, accessibility is enabled, `adb_wifi_enabled` ends at "1", and no other setting changes. The port listener also runs. From R on, discovery starts listening. Before R, a positive static port runs the job. |
| `SelfStarterService.OnPort` | manager/src/main/java/moe/shizuku/manager/starter/SelfStarterService.kt:89-101 | A null port, a port below 1 or a port above 65535 changes nothing. A valid port with a server answering the ping only stops the service. Otherwise `startAdb` runs with that port and no setting changes. |
| `SelfStarterService.OnDestroy` | manager/src/main/java/moe/shizuku/manager/starter/SelfStarterService.kt:202-223 | With the permission: the accessibility list is set to the snapshot verbatim and `adb_wifi_enabled` to "0". Without it: no setting is touched. The call crashes iff discovery is used but was never created. Otherwise discovery is stopped. |
| `SelfStarterService.OnAvailableOnce` | manager/src/main/java/moe/shizuku/manager/starter/SelfStarterService.kt:63-72 | Snapshot-once version of the callback. A later callback keeps the first snapshot and writes the component in front of it again. The first callback captures the list as written. |
| `SelfStarterService.OnDestroyRestoring` | manager/src/main/java/moe/shizuku/manager/starter/SelfStarterService.kt:209-218 | The teardown writes the snapshot back only if one was captured, and always sets `adb_wifi_enabled` to "0" when the permission is granted. |
| `StarterLifecycle.Step` | manager/src/main/java/moe/shizuku/manager/starter/SelfStarterService.kt:53-101 | With either the callbacks as written or the snapshot-once versions: no event changes the permission or the SDK level, and no event shortens the log or the posted results. A destroyed or crashed service ignores every event, and a destroy event always ends destroyed or crashed. |
| `StarterLifecycle.TraceInvariants` | manager/src/main/java/moe/shizuku/manager/starter/SelfStarterService.kt:89-136 | For any event sequence from a fresh service, with either set of callbacks: the output of every earlier state is extended by every later one, so the log is only appended to and no post is withdrawn. Posted logs only grow, and every port handed to `startAdb` is positive (and at most 65535 when it came from discovery). There is one port per job, and there are no more fallbacks than jobs. |
| `StarterLifecycle.DestroyRestoresSettings` | manager/src/main/java/moe/shizuku/manager/starter/SelfStarterService.kt:209-218 | For the snapshot-once callbacks, with the permission and any initial settings: any event sequence followed by destruction leaves the accessibility list as it was before the service started. A set list keeps its value, and an unset list stays unset. `adb_wifi_enabled` ends at "0". The service ends destroyed, or, only when the list was unset, crashed at the first network callback (the null read). |
| `StarterLifecycle.WithoutPermissionNothingHappens` | manager/src/main/java/moe/shizuku/manager/starter/SelfStarterService.kt:54-86 | Without the permission, with either set of callbacks, no event sequence writes a setting, hands a port to `startAdb`, or logs or posts anything. |
| `StarterLifecycle.DestroyIsFinal` | manager/src/main/java/moe/shizuku/manager/starter/SelfStarterService.kt:202-223 | With either set of callbacks, every event after destruction is ignored, so destroying twice equals destroying once. |
| `StarterLifecycle.LaterPortStartsAnotherJob` | manager/src/main/java/moe/shizuku/manager/starter/SelfStarterService.kt:89-101 | With either set of callbacks, while the server does not answer, two valid ports start two jobs, with both ports recorded in order. |
| `StarterLifecycle.KeyFailureKeepsServiceWaiting` | manager/src/main/java/moe/shizuku/manager/starter/SelfStarterService.kt:145-152 | With either set of callbacks, after a network and a port whose key creation fails: the log is the header, a newline and the trace. The last post is the wrapped key error, and there is no fallback. The service is not stopped and is still listening for ports. |
| `StarterLifecycle.SingleNetworkRestores` | manager/src/main/java/moe/shizuku/manager/starter/SelfStarterService.kt:209-218 | As written, one network callback followed by destruction restores the accessibility list and sets `adb_wifi_enabled` to "0". |
| `StarterLifecycle.RepeatedNetworkKeepsServiceEnabled` | manager/src/main/java/moe/shizuku/manager/starter/SelfStarterService.kt:63-72 | As written, two network callbacks followed by destruction leave the list as the component, ":" and the original list, which differs from the original. |
| `StarterLifecycle.RepeatedNetworkRestoresOnce` | manager/src/main/java/moe/shizuku/manager/starter/SelfStarterService.kt:63-72 | With the snapshot taken once, the same two callbacks followed by destruction restore the original list. |
| `StarterLifecycle.EarlyDestroyClearsServices` | manager/src/main/java/moe/shizuku/manager/starter/SelfStarterService.kt:45 | As written, destruction before any network callback writes the initial empty snapshot over a non-empty list. |
| `StarterLifecycle.EarlyDestroyKeepsServices` | manager/src/main/java/moe/shizuku/manager/starter/SelfStarterService.kt:45 | Restoring only a captured snapshot leaves the list untouched in that case. |

## Findings

| source | as written | input that shows it | evidently intended | confidence | as-written member | corrected member |
|---|---|---|---|---|---|---|
| manager/src/main/java/moe/shizuku/manager/starter/SelfStarterService.kt:63-72 | Every network callback reads the current accessibility list into the snapshot, including the list this service itself wrote. | Permission granted; Wi-Fi becomes available twice (a reconnect before a port is found); then the service is destroyed. The list ends as the component, ":" and the original list, so the service stays enabled. | The snapshot is taken once per run, and teardown restores the list from before the first callback. | medium; not executed | `StarterLifecycle.RepeatedNetworkKeepsServiceEnabled` (on `SelfStarterService.OnAvailable`) | `SelfStarterService.OnAvailableOnce`; proved in `StarterLifecycle.RepeatedNetworkRestoresOnce` and `StarterLifecycle.DestroyRestoresSettings` |
| manager/src/main/java/moe/shizuku/manager/starter/SelfStarterService.kt:45 | The snapshot starts as "". The `!= null` check before restoring always passes, so teardown writes the snapshot even when none was captured. | Permission granted, list "com.example/.Reader"; the service is destroyed before any Wi-Fi network became available. The list becomes "". | Write the snapshot back only if one was captured, which is what the null check was evidently for. | low (needs an external stop before any network); not executed | `StarterLifecycle.EarlyDestroyClearsServices` (on `SelfStarterService.OnDestroy`) | `SelfStarterService.OnDestroyRestoring`; proved in `StarterLifecycle.EarlyDestroyKeepsServices` and `StarterLifecycle.DestroyRestoresSettings` |

The event machine `StarterLifecycle.Step` runs either the callbacks as written or the
corrected ones, selected by its `Callbacks` argument. The trace invariants hold for both.
The cleanup theorem is proved for the corrected ones only, because the first row shows it
failing for the callbacks as written.

## Left out

- The ADB protocol client, key generation and storage, and mDNS discovery
  (`AdbClient`, `AdbKey`, `PreferenceAdbKeyStore`, `AdbMdns`,
  `EnvironmentUtils.getAdbTcpPort`) are not part of this model. Their results are
  inputs: the key outcome, the client runs, the discovered and static ports.
- Registering the network callback in `onStartCommand` is platform plumbing. The
  initial `Started` state is the service right after it. A second `onStartCommand`,
  which would register the same callback again, is not modelled.
- Toasts, `LiveData` threading and the main-looper handler are not modelled. The
  observer registration is reduced to the `Listening` discovery state.
- Concurrency: the background job runs to completion when launched. A destroy that
  arrives while a job is still running is not modelled.
- `Starter.writeSdcardFiles`, `Starter.writeDataFiles` and `Shell.su` are external
  effects. They appear only as the `RunRootDataCommand` action and the fallback flag.
  An exception they might throw is not modelled. Only `writeSdcardFiles` reached from
  the port observer would be caught (its `try` at SelfStarterService.kt:95-99). The
  other calls would crash:
  - On the static-port path, `adbPortListener` calls `startAdb` at line 126 with no
    `try`, and `startAdb` calls `writeSdcardFiles` at line 139.
  - `writeDataFiles` at line 175 runs in the background job, where nothing catches it.
  - `writeDataFiles` and `Shell.su` at BootCompleteReceiver.kt:72-73 have no `try`.
- Byte-to-text decoding of each chunk (`String(it)`) is not modelled. A chunk is
  already text, so a multi-byte character split across chunks is not represented.
- Stack-trace text is opaque: a `Throwable` is known only by its trace string.
- A starting service that throws `SecurityException` only shows a toast. The action is
  still `StartSelfStarterService`.
- StarterLifecycle.DestroyRestoresSettings: proved only for the snapshot-once callbacks.
  With the callbacks as written, the list is not always restored (see Findings).
- The permission is fixed for the life of a service. Revoking or granting it while the
  service runs is not an event.
- The extra `AdbMdns` instance created by a second network callback (the first one is
  never stopped) is not tracked.
- `AdbAccessibilityService`, which clicks "allow" in the system debugging dialog, is UI
  automation with no state of its own in this flow.

=== FILE: boot_complete_receiver.dfy ===
/** The boot-completed broadcast receiver: decides, once per boot broadcast, whether
    to start the server through root, to start the wireless-debugging self-starter
    service, or to do nothing. Every platform query the receiver makes is an input
    field of `Environment`, and the decision is a pure function of them. */
module BootCompleteReceiver {

  import opened Strings

  /** Android keeps one uid range of this size per user; user 0 owns the first one. */
  const PER_USER_RANGE: int := 100000

  /** A 32-bit signed integer, the width of `Process.myUid()`. */
  type Int32 = x: int | -0x8000_0000 <= x < 0x8000_0000

  /** The intent action delivered to the receiver. */
  datatype IntentAction =
    | LockedBootCompleted
    | BootCompleted
    | OtherAction                        // any action but the two boot actions, or none at all

  /** The launch method recorded when the server was last started. */
  /** The launch mode recorded by the last start; `OtherMethod` is any value but ROOT's and ADB's. */
  datatype LaunchMethod = Root | Adb | OtherMethod

  /** Everything the receiver reads from the platform while handling one broadcast. */
  datatype Environment = Environment(
    action: IntentAction,
    uid: Int32,                  // Process.myUid()
    lastLaunchMode: LaunchMethod,
    serverRunning: bool,         // Shizuku.pingBinder()
    wirelessOnBoot: bool,        // KEEP_START_ON_BOOT_WIRELESS, false when unset
    rootAccess: bool,            // Shell.rootAccess()
    secureSettingsGranted: bool) // WRITE_SECURE_SETTINGS is granted

  /** The one effect a broadcast can have. `RunRootDataCommand` writes the data-directory
      starter files and then runs the data command in a root shell. */
  datatype BootAction = NoAction | StartSelfStarterService | RunRootDataCommand

  /** Kotlin's `Int` division, which truncates toward zero (Dafny's `/` is Euclidean). */
  function TruncDiv(a: int, b: int): (q: int)
    requires b > 0
    ensures a >= 0 ==> q * b <= a < q * b + b
    ensures a < 0 ==> q * b - b < a <= q * b
  {
    if a >= 0 then a / b else -((-a) / b)
  }

  /** The receiver gives up in every user but the primary one. */
  predicate InSecondaryUser(uid: Int32)
  {
    TruncDiv(uid, PER_USER_RANGE) > 0
  }

  /** The uid test singles out exactly the uids from the second user range upward;
      negative uids truncate to user 0 and count as primary. */
  lemma SecondaryUserIffUidRange(uid: Int32)
    ensures InSecondaryUser(uid) <==> uid >= PER_USER_RANGE
  {
  }

  predicate IsBootAction(a: IntentAction)
  {
    a == LockedBootCompleted || a == BootCompleted
  }

  /** `start`: with root, always the root data command; without root, the self-starter
      service exactly when the wireless preference passed in is on and the
      secure-settings permission is granted. A SecurityException from starting the
      service only produces a toast, so the attempt is the action. */
  function Start(rootAccess: bool, startOnBootWireless: bool, secureSettingsGranted: bool): (r: BootAction)
    ensures rootAccess ==> r == RunRootDataCommand
    ensures !rootAccess ==> (r == StartSelfStarterService <==> startOnBootWireless && secureSettingsGranted)
    ensures !rootAccess ==> r != RunRootDataCommand
  {
    if !rootAccess then
      if startOnBootWireless && secureSettingsGranted then StartSelfStarterService else NoAction
    else
      RunRootDataCommand
  }

  /** `onReceive`: the complete decision for one broadcast. */
  function OnReceive(env: Environment): (r: BootAction)
    // only the two boot actions are handled
    ensures !IsBootAction(env.action) ==> r == NoAction
    // a non-primary user never starts anything
    ensures InSecondaryUser(env.uid) ==> r == NoAction
    // a server that already answers a ping is left alone
    ensures env.serverRunning ==> r == NoAction
    // in ADB mode the locked-boot broadcast is ignored
    ensures env.lastLaunchMode == Adb && env.action == LockedBootCompleted ==> r == NoAction
    // root mode passes `false` as the wireless flag
    ensures env.lastLaunchMode == Root ==> r != StartSelfStarterService
    // any other launch mode does nothing
    ensures env.lastLaunchMode.OtherMethod? ==> r == NoAction
    // the two effects, each characterised in full
    ensures r == StartSelfStarterService <==>
      && env.action == BootCompleted && !InSecondaryUser(env.uid)
      && env.lastLaunchMode == Adb && !env.serverRunning
      && !env.rootAccess && env.wirelessOnBoot && env.secureSettingsGranted
    ensures r == RunRootDataCommand <==>
      && IsBootAction(env.action) && !InSecondaryUser(env.uid)
      && (env.lastLaunchMode == Root || (env.lastLaunchMode == Adb && env.action == BootCompleted))
      && !env.serverRunning && env.rootAccess
  {
    if env.action != LockedBootCompleted && env.action != BootCompleted then
      NoAction
    else if TruncDiv(env.uid, PER_USER_RANGE) > 0 then
      NoAction
    else if env.lastLaunchMode == Root then
      if env.serverRunning then NoAction
      else Start(env.rootAccess, false, env.secureSettingsGranted)
    else if env.lastLaunchMode == Adb then
      if env.serverRunning then NoAction
      else if env.action == BootCompleted then
        Start(env.rootAccess, env.wirelessOnBoot, env.secureSettingsGranted)
      else NoAction
    else
      NoAction
  }

  /** In root mode the wireless preference and the permission play no part: the outcome
      depends only on the action, the uid, the ping and root access. */
  lemma RootModeIgnoresWirelessSettings(env: Environment, wireless: bool, granted: bool)
    requires env.lastLaunchMode == Root
    ensures OnReceive(env.(wirelessOnBoot := wireless, secureSettingsGranted := granted)) == OnReceive(env)
  {
  }

  /** With root available, root mode and ADB mode behave alike on BOOT_COMPLETED. */
  lemma RootAccessUnifiesModes(env: Environment)
    requires env.rootAccess && env.action == BootCompleted
    ensures OnReceive(env.(lastLaunchMode := Root)) == OnReceive(env.(lastLaunchMode := Adb))
  {
  }

  /** The two boot actions differ only in ADB mode. */
  lemma LockedBootDiffersOnlyInAdbMode(env: Environment)
    requires env.lastLaunchMode != Adb
    ensures OnReceive(env.(action := LockedBootCompleted)) == OnReceive(env.(action := BootCompleted))
  {
  }
}

=== FILE: self_starter_service.dfy ===
/** The self-starter service that brings the server up over wireless debugging once a
    Wi-Fi network is available. Its abstract state is a `Service` record; each
    platform callback is a pure step from one record to the next.

    The system settings it touches are one map from setting name to stored text
    (integer settings are stored as their decimal text, an absent key reads as null).
    The service is assumed to be the only writer of these settings while it runs. */
module SelfStarterService {

  import opened Strings
  import opened StarterJob

  const ADB_WIFI_ENABLED: string := "adb_wifi_enabled"
  const ENABLED_ACCESSIBILITY_SERVICES: string := "enabled_accessibility_services"
  const ACCESSIBILITY_ENABLED: string := "accessibility_enabled"

  /** Component name of the accessibility service that accepts the debugging prompt. */
  const ACCESSIBILITY_COMPONENT: string :=
    "moe.shizuku.privileged.api/moe.shizuku.manager.adb.AdbAccessibilityService"

  const MAX_PORT: int := 65535

  /** Life of the mDNS port discovery (the `lateinit adbMdns` and the port observer). */
  datatype Discovery = NotCreated | Listening | Stopped

  datatype Service = Service(
    dynamicDiscovery: bool,         // SDK level is at least R: the port comes from mDNS
    granted: bool,                  // WRITE_SECURE_SETTINGS is granted
    serverRunning: bool,            // the server answers a ping
    settings: map<string, string>,
    snapshot: string,               // `accessibility_service`
    captured: bool,                 // a network callback has read `snapshot` from the settings
    out: Output,                    // the log `sb` and the posted results
    ports: seq<int>,                // every port `startAdb` was called with, in order
    jobs: nat,                      // `startAdb` calls
    fallbackRuns: nat,              // jobs that ran the data-directory command
    stopped: bool,                  // `stopSelf` was called
    discovery: Discovery,
    destroyed: bool,                // `onDestroy` ran; the network callback is unregistered
    crashed: bool)                  // a callback threw and the process died

  /** The service right after `onStartCommand` registered its Wi-Fi network callback:
      nothing captured yet (`accessibility_service` starts as the empty string). */
  function Started(dynamicDiscovery: bool, granted: bool, serverRunning: bool, settings: map<string, string>): Service
  {
    Service(dynamicDiscovery, granted, serverRunning, settings, "", false, Output("", []),
            [], 0, 0, false, NotCreated, false, false)
  }

  /** The value written to the enabled accessibility services: this app's component in
      front of the services that were enabled before. */
  function WithAccessibilityComponent(saved: string): string
  {
    ACCESSIBILITY_COMPONENT + ":" + saved
  }

  /** `startAdb(port)`: runs the whole job (the model treats the background job as
      running to completion at once) and records its effects. */
  function StartAdbStep(s: Service, port: int, input: JobInput): (r: Service)
    ensures r.settings == s.settings && r.snapshot == s.snapshot && r.captured == s.captured
    ensures r.discovery == s.discovery && r.destroyed == s.destroyed && r.crashed == s.crashed
    ensures r.ports == s.ports + [port] && r.jobs == s.jobs + 1
    ensures s.fallbackRuns <= r.fallbackRuns <= s.fallbackRuns + 1
    // a fallback is counted exactly when the key exists and the primary run shows the marker
    ensures r.fallbackRuns == s.fallbackRuns + 1 <==>
      input.key.KeyCreated? && Contains(s.out.log + HEADER + RunText(input.primary), PERMISSION_DENIED_MARKER)
    ensures Extends(s.out, r.out) && s.out.log + HEADER <= r.out.log
    // a job with a key ends with `stopSelf`
    ensures r.stopped == (s.stopped || input.key.KeyCreated?)
  {
    var job := StartAdb(s.out, input);
    s.(out := job.out,
       ports := s.ports + [port],
       jobs := s.jobs + 1,
       fallbackRuns := s.fallbackRuns + (if job.fallbackRan then 1 else 0),
       stopped := s.stopped || job.stopRequested)
  }

  /** `adbPortListener`: from SDK level R on, start mDNS discovery and observe the port;
      before R, read the static port and start right away when it is positive. */
  function AdbPortListener(s: Service, staticPort: int, input: JobInput): (r: Service)
    ensures r.settings == s.settings && r.snapshot == s.snapshot && r.captured == s.captured
    ensures r.crashed == s.crashed && r.destroyed == s.destroyed && r.granted == s.granted
    ensures s.dynamicDiscovery ==> r.discovery == Listening && r.ports == s.ports && r.out == s.out
    ensures s.dynamicDiscovery ==> r == s.(discovery := Listening)
    ensures !s.dynamicDiscovery && staticPort > 0 ==> r.ports == s.ports + [staticPort] && r.jobs == s.jobs + 1
    // before R, a positive static port runs the job on `input` right away
    ensures !s.dynamicDiscovery && staticPort > 0 ==>
      var job := StartAdb(s.out, input);
      && r.out == job.out && r.stopped == (s.stopped || input.key.KeyCreated?)
      && r.fallbackRuns == s.fallbackRuns + (if job.fallbackRan then 1 else 0)
    ensures !s.dynamicDiscovery && staticPort <= 0 ==> r == s
  {
    if s.dynamicDiscovery then
      s.(discovery := Listening)
    else if staticPort > 0 then
      StartAdbStep(s, staticPort, input)
    else
      s
  }

  /** The effect of `adbPortListener` between `s` and `r`: from SDK level R on, discovery
      listens and no job starts; before R, a positive static port runs the job on `input`,
      and any other port starts nothing. */
  ghost predicate PortListenerRan(s: Service, r: Service, staticPort: int, input: JobInput)
  {
    if s.dynamicDiscovery then
      r.discovery == Listening && r.ports == s.ports && r.jobs == s.jobs
      && r.out == s.out && r.stopped == s.stopped && r.fallbackRuns == s.fallbackRuns
    else if staticPort > 0 then
      var job := StartAdb(s.out, input);
      && r.discovery == s.discovery && r.ports == s.ports + [staticPort] && r.jobs == s.jobs + 1
      && r.out == job.out && r.stopped == (s.stopped || input.key.KeyCreated?)
      && r.fallbackRuns == s.fallbackRuns + (if job.fallbackRan then 1 else 0)
    else
      r.discovery == s.discovery && r.ports == s.ports && r.jobs == s.jobs
      && r.out == s.out && r.stopped == s.stopped && r.fallbackRuns == s.fallbackRuns
  }

  /** The writes of a network callback that holds the permission, once `saved` has been
      chosen as the accessibility services to restore later. */
  function EnableWirelessAdb(s: Service, saved: string, staticPort: int, input: JobInput): (r: Service)
    ensures r.snapshot == saved && r.captured && r.crashed == s.crashed && r.destroyed == s.destroyed
    ensures r.settings == s.settings[ENABLED_ACCESSIBILITY_SERVICES := WithAccessibilityComponent(saved)]
                                    [ACCESSIBILITY_ENABLED := "1"][ADB_WIFI_ENABLED := "1"]
    // the port listener: discovery from R on, the static port's job before R
    ensures PortListenerRan(s, r, staticPort, input)
  {
    var prepared := s.(snapshot := saved, captured := true,
                       settings := s.settings[ADB_WIFI_ENABLED := "0"]
                                             [ENABLED_ACCESSIBILITY_SERVICES := WithAccessibilityComponent(saved)]
                                             [ACCESSIBILITY_ENABLED := "1"]);
    var listening := AdbPortListener(prepared, staticPort, input);
    listening.(settings := listening.settings[ADB_WIFI_ENABLED := "1"])
  }

  /** `mNetworkCallback.onAvailable` as written. Without the permission it only stops the
      service. With it: wireless debugging off, the enabled accessibility services read
      into the snapshot (reading null throws, since the snapshot is a non-null String),
      this app's service put in front, accessibility on, the port listener started, and
      wireless debugging on. */
  function OnAvailable(s: Service, staticPort: int, input: JobInput): (r: Service)
    ensures !s.granted ==> r == s.(stopped := true)
    ensures s.granted && ENABLED_ACCESSIBILITY_SERVICES !in s.settings ==>
      r == s.(settings := s.settings[ADB_WIFI_ENABLED := "0"], crashed := true)
    ensures s.granted && ENABLED_ACCESSIBILITY_SERVICES in s.settings ==>
      var before := s.settings[ENABLED_ACCESSIBILITY_SERVICES];
      && r.snapshot == before && r.crashed == s.crashed
      && r.settings == s.settings[ENABLED_ACCESSIBILITY_SERVICES := ACCESSIBILITY_COMPONENT + ":" + before]
                                 [ACCESSIBILITY_ENABLED := "1"][ADB_WIFI_ENABLED := "1"]
      && PortListenerRan(s, r, staticPort, input)
  {
    if !s.granted then
      s.(stopped := true)
    else if ENABLED_ACCESSIBILITY_SERVICES !in s.settings then
      s.(settings := s.settings[ADB_WIFI_ENABLED := "0"], crashed := true)
    else
      EnableWirelessAdb(s, s.settings[ENABLED_ACCESSIBILITY_SERVICES], staticPort, input)
  }

  /** The port observer: null and out-of-range values are dropped; for a valid port, a
      server that already answers stops the service, otherwise `startAdb` runs. */
  function OnPort(s: Service, port: Option<int>, input: JobInput): (r: Service)
    ensures port.None? || port.value > MAX_PORT || port.value < 1 ==> r == s
    ensures port.Some? && 1 <= port.value <= MAX_PORT && s.serverRunning ==>
      r == s.(stopped := true)
    ensures port.Some? && 1 <= port.value <= MAX_PORT && !s.serverRunning ==>
      && r.ports == s.ports + [port.value] && r.jobs == s.jobs + 1
      && r.settings == s.settings && s.out.log + HEADER <= r.out.log
  {
    if port.None? || port.value > MAX_PORT || port.value < 1 then
      s
    else if s.serverRunning then
      s.(stopped := true)
    else
      StartAdbStep(s, port.value, input)
  }

  /** The teardown of `onDestroy`, with or without writing the snapshot back. With the
      permission, wireless debugging is switched off; from SDK level R on, discovery is
      stopped, and touching a discovery that was never created throws. */
  function Teardown(s: Service, restoreSnapshot: bool): (r: Service)
    ensures r.destroyed && r.out == s.out && r.ports == s.ports
    ensures !s.granted ==> r.settings == s.settings
    ensures s.granted && restoreSnapshot ==>
      r.settings == s.settings[ENABLED_ACCESSIBILITY_SERVICES := s.snapshot][ADB_WIFI_ENABLED := "0"]
    ensures s.granted && !restoreSnapshot ==> r.settings == s.settings[ADB_WIFI_ENABLED := "0"]
  {
    var settings :=
      if !s.granted then s.settings
      else if restoreSnapshot then s.settings[ENABLED_ACCESSIBILITY_SERVICES := s.snapshot][ADB_WIFI_ENABLED := "0"]
      else s.settings[ADB_WIFI_ENABLED := "0"];
    var unregistered := s.(settings := settings, destroyed := true);
    if !s.dynamicDiscovery then unregistered
    else if s.discovery == NotCreated then unregistered.(crashed := true)
    else unregistered.(discovery := Stopped)
  }

  /** `onDestroy` as written: with the permission the snapshot is written back verbatim
      (the null check on the non-null snapshot always passes, so even the initial empty
      string is written) and wireless debugging is switched off; without it neither
      setting is touched. */
  function OnDestroy(s: Service): (r: Service)
    ensures r.destroyed
    ensures s.granted ==> r.settings == s.settings[ENABLED_ACCESSIBILITY_SERVICES := s.snapshot][ADB_WIFI_ENABLED := "0"]
    ensures !s.granted ==> r.settings == s.settings
    ensures r.crashed <==> s.crashed || (s.dynamicDiscovery && s.discovery == NotCreated)
    ensures s.dynamicDiscovery && s.discovery != NotCreated ==> r.discovery == Stopped
    ensures r.out == s.out && r.ports == s.ports
  {
    Teardown(s, true)
  }

  /** `onAvailable` with the snapshot taken once: a later callback keeps the first
      snapshot instead of reading back the value this service itself wrote. */
  function OnAvailableOnce(s: Service, staticPort: int, input: JobInput): (r: Service)
    ensures !s.granted ==> r == s.(stopped := true)
    ensures s.granted && s.captured ==>
      r.snapshot == s.snapshot && r.crashed == s.crashed
      && r.settings == s.settings[ENABLED_ACCESSIBILITY_SERVICES := WithAccessibilityComponent(s.snapshot)]
                                 [ACCESSIBILITY_ENABLED := "1"][ADB_WIFI_ENABLED := "1"]
    ensures s.granted && !s.captured && ENABLED_ACCESSIBILITY_SERVICES in s.settings ==>
      r.snapshot == s.settings[ENABLED_ACCESSIBILITY_SERVICES] && r.crashed == s.crashed
      && ENABLED_ACCESSIBILITY_SERVICES in r.settings
      && r.settings[ENABLED_ACCESSIBILITY_SERVICES] == WithAccessibilityComponent(r.snapshot)
    ensures s.granted && !s.captured && ENABLED_ACCESSIBILITY_SERVICES !in s.settings ==> r.crashed
    ensures s.granted && !r.crashed ==> r.captured
  {
    if !s.granted then
      s.(stopped := true)
    else if s.captured then
      EnableWirelessAdb(s, s.snapshot, staticPort, input)
    else
      OnAvailable(s, staticPort, input)
  }

  /** `onDestroy` writing the snapshot back only when one was captured. */
  function OnDestroyRestoring(s: Service): (r: Service)
    ensures r.destroyed
    ensures s.granted && s.captured ==>
      r.settings == s.settings[ENABLED_ACCESSIBILITY_SERVICES := s.snapshot][ADB_WIFI_ENABLED := "0"]
    ensures s.granted && !s.captured ==> r.settings == s.settings[ADB_WIFI_ENABLED := "0"]
    ensures !s.granted ==> r.settings == s.settings
    ensures r.out == s.out && r.ports == s.ports
  {
    Teardown(s, s.captured)
  }
}

=== FILE: starter_job.dfy ===
/** The `startAdb` job of the self-starter service: the text log it builds (the
    service's `sb`), the results it posts to observers, and the single retry with the
    data-directory command when the primary command reports the permission-denied
    marker. The ADB client is opaque: each client run is given as the chunks of
    output it delivered followed by the failure, if any, that ended it. */
module StarterJob {

  import opened Strings

  /** Package name of the manager application. */
  const APPLICATION_ID: string := "moe.shizuku.privileged.api"

  /** First text the job writes to the log. */
  const HEADER: string := "Starting with wireless adb...\n\n"

  /** Shell error meaning that adb may not read the starter script under Android/data. */
  const PERMISSION_DENIED_MARKER: string := "/Android/data/" + APPLICATION_ID + "/start.sh: Permission denied"

  /** A newline, two explanation lines and an empty line (`appendLine` ends each with '\n'). */
  const DIAGNOSTIC: string :=
    "\n" + "adb have no permission to access Android/data, how could this possible ?!\n"
    + "try /data/user_de instead...\n" + "\n"

  /** An exception, known only by the text of its stack trace. */
  datatype Throwable = Throwable(stackTrace: string)

  /** What an error result carries: the exception itself, or an `AdbKeyException`
      wrapping the exception raised while creating the key. */
  datatype Cause = Thrown(error: Throwable) | AdbKeyException(error: Throwable)

  datatype Status = Success | Error(cause: Cause)

  /** One value posted to the output LiveData: a status and the log as it stood. */
  datatype Resource = Resource(status: Status, data: string)

  /** The log `sb` and, in order, every result posted so far. */
  datatype Output = Output(log: string, posts: seq<Resource>)

  /** How the creation of the ADB key ended. */
  datatype KeyOutcome = KeyCreated | KeyCreationFailed(error: Throwable)

  /** One run of an ADB client (connect, shell command, close): the output chunks it
      delivered, decoded to text, in arrival order, then the failure that ended it, if any. */
  datatype ClientRun = ClientRun(chunks: seq<string>, failure: Option<Throwable>)

  /** What the job meets from the outside: the key and the two client runs. The
      secondary run is consulted only when the job falls back. */
  datatype JobInput = JobInput(key: KeyOutcome, primary: ClientRun, secondary: ClientRun)

  /** The job's effects: the output, whether the data-directory fallback ran, whether the
      job ended with `stopSelf`, and how many clients it created. */
  datatype JobResult = JobResult(out: Output, fallbackRan: bool, stopRequested: bool, clientsCreated: nat)

  /** `o2` continues `o1`: the log only grew and no posted result was withdrawn. */
  ghost predicate Extends(o1: Output, o2: Output)
  {
    o1.log <= o2.log && o1.posts <= o2.posts
  }

  /** Observers see a growing view: every posted log is a prefix of every later posted log
      and of the current log. */
  ghost predicate Monotone(o: Output)
  {
    && (forall i :: 0 <= i < |o.posts| ==> o.posts[i].data <= o.log)
    && (forall i, j :: 0 <= i < j < |o.posts| ==> o.posts[i].data <= o.posts[j].data)
  }

  lemma PrefixTransitive<T>(a: seq<T>, b: seq<T>, c: seq<T>)
    requires a <= b && b <= c
    ensures a <= c
  {
    assert c[..|a|] == c[..|b|][..|a|];
  }

  /** `sb.append(text)`. */
  function Append(o: Output, text: string): Output
  {
    Output(o.log + text, o.posts)
  }

  /** `postResult`: posts a success exactly when no throwable is given and an error
      carrying the throwable otherwise; either way with the log as it stands. */
  function PostResult(o: Output, throwable: Option<Cause>): (r: Output)
    ensures r.log == o.log && o.posts <= r.posts && |r.posts| == |o.posts| + 1
    ensures r.posts[|o.posts|].data == o.log
    ensures r.posts[|o.posts|].status == Success <==> throwable == None
    ensures throwable.Some? ==> r.posts[|o.posts|].status == Error(throwable.value)
  {
    var status := if throwable == None then Success else Error(throwable.value);
    Output(o.log, o.posts + [Resource(status, o.log)])
  }

  /** The chunk callback of `shellCommand`, applied to each chunk in turn: append the chunk,
      then post a success. The k-th new post carries the log up to and including chunk k. */
  function DeliverChunks(o: Output, chunks: seq<string>): (r: Output)
    ensures r.log == o.log + Concat(chunks)
    ensures o.posts <= r.posts && |r.posts| == |o.posts| + |chunks|
    ensures forall k :: |o.posts| <= k < |r.posts| ==>
      r.posts[k] == Resource(Success, o.log + Concat(chunks[..k - |o.posts| + 1]))
    decreases |chunks|
  {
    if |chunks| == 0 then
      o
    else
      var first := PostResult(Append(o, chunks[0]), None);
      var r := DeliverChunks(first, chunks[1..]);
      assert r.log == o.log + Concat(chunks) by {
        assert first.log == o.log + chunks[0];
        assert (o.log + chunks[0]) + Concat(chunks[1..]) == o.log + (chunks[0] + Concat(chunks[1..]));
      }
      PrefixTransitive(o.posts, first.posts, r.posts);
      forall k | |o.posts| <= k < |r.posts|
        ensures r.posts[k] == Resource(Success, o.log + Concat(chunks[..k - |o.posts| + 1]))
      {
        DeliveredPost(o, chunks, first, r, k - |o.posts|);
      }
      r
  }

  /** The k-th post of a delivery carries the log up to and including the k-th chunk. */
  lemma DeliveredPost(o: Output, chunks: seq<string>, first: Output, r: Output, k: nat)
    requires 0 <= k < |chunks|
    requires first == PostResult(Append(o, chunks[0]), None)
    requires first.posts <= r.posts && |r.posts| == |first.posts| + |chunks| - 1
    requires forall j :: |first.posts| <= j < |r.posts| ==>
      r.posts[j] == Resource(Success, first.log + Concat(chunks[1..][..j - |first.posts| + 1]))
    ensures r.posts[|o.posts| + k] == Resource(Success, o.log + Concat(chunks[..k + 1]))
  {
    assert chunks[..k + 1][0] == chunks[0];
    assert chunks[..k + 1][1..] == chunks[1..][..k];
    if k == 0 {
      assert chunks[..1][1..] == [];
      assert r.posts[|o.posts|] == first.posts[|o.posts|];
    } else {
      var j := |first.posts| + (k - 1);
      assert r.posts[j] == Resource(Success, first.log + Concat(chunks[1..][..k]));
      assert (o.log + chunks[0]) + Concat(chunks[1..][..k]) == o.log + (chunks[0] + Concat(chunks[1..][..k]));
    }
  }

  /** The status a client run ends with: its failure if it failed, a success otherwise. */
  function RunStatus(run: ClientRun): Status
  {
    if run.failure.Some? then Error(Thrown(run.failure.value)) else Success
  }

  /** The status the job ends with: the wrapped key error, or else the status of the last
      client run (the secondary one when the job fell back). */
  function JobStatus(input: JobInput, fellBack: bool): Status
  {
    if input.key.KeyCreationFailed? then Error(AdbKeyException(input.key.error))
    else if fellBack then RunStatus(input.secondary)
    else RunStatus(input.primary)
  }

  /** The latest posted result has `status` and carries the log as it stands. */
  predicate EndsWith(o: Output, status: Status)
  {
    |o.posts| > 0 && o.posts[|o.posts| - 1] == Resource(status, o.log)
  }

  /** The text a client run leaves in the log: its chunks in order, then a newline and the
      stack trace if it failed. */
  function RunText(run: ClientRun): string
  {
    Concat(run.chunks) + FailureText(run.failure)
  }

  /** `sb.append('\n').append(Log.getStackTraceString(it))` when the run failed. */
  function FailureText(failure: Option<Throwable>): string
  {
    if failure.Some? then "\n" + failure.value.stackTrace else ""
  }

  /** One `AdbClient(...).runCatching { ... }.onFailure { ... }` block: every chunk
      appended and posted as a success, then, on failure, the trace appended and the
      failure posted as an error. */
  function RunClient(o: Output, run: ClientRun): (r: Output)
    ensures r.log == o.log + RunText(run)
    ensures o.posts <= r.posts
    ensures |r.posts| == |o.posts| + |run.chunks| + (if run.failure.Some? then 1 else 0)
    ensures forall k :: |o.posts| <= k < |o.posts| + |run.chunks| ==> r.posts[k].status == Success
    ensures run.failure.Some? ==> r.posts[|r.posts| - 1] == Resource(Error(Thrown(run.failure.value)), r.log)
    // after a successful post of the current log, the run leaves its own outcome last
    ensures EndsWith(o, Success) ==> EndsWith(r, RunStatus(run))
  {
    var delivered := DeliverChunks(o, run.chunks);
    assert |run.chunks| > 0 ==> EndsWith(delivered, Success) by {
      if |run.chunks| > 0 {
        assert run.chunks[..|run.chunks|] == run.chunks;
      }
    }
    match run.failure
    case None => delivered
    case Some(t) =>
      var r := PostResult(Append(delivered, "\n" + t.stackTrace), Some(Thrown(t)));
      assert r.log == o.log + RunText(run) by {
        assert (o.log + Concat(run.chunks)) + ("\n" + t.stackTrace) == o.log + (Concat(run.chunks) + ("\n" + t.stackTrace));
      }
      PrefixTransitive(o.posts, delivered.posts, r.posts);
      r
  }

  /** The body launched on the IO dispatcher. */
  function Job(o: Output, input: JobInput): (r: JobResult)
    ensures Extends(o, r.out)
    // a key failure creates no client, posts the wrapped error and skips stopSelf
    ensures input.key.KeyCreationFailed? ==>
      && r.out.log == o.log + "\n" + input.key.error.stackTrace
      && r.out.posts == o.posts + [Resource(Error(AdbKeyException(input.key.error)), r.out.log)]
      && !r.fallbackRan && !r.stopRequested && r.clientsCreated == 0
    // otherwise one primary client, then at most one secondary, then stopSelf
    ensures input.key.KeyCreated? ==>
      && r.stopRequested
      && (r.fallbackRan <==> Contains(o.log + RunText(input.primary), PERMISSION_DENIED_MARKER))
      && r.clientsCreated == (if r.fallbackRan then 2 else 1)
      && r.out.log == o.log + RunText(input.primary)
                      + (if r.fallbackRan then DIAGNOSTIC + RunText(input.secondary) else "")
    // the last post is the job's outcome, carrying the final log
    ensures input.key.KeyCreationFailed? || EndsWith(o, Success) ==> EndsWith(r.out, JobStatus(input, r.fallbackRan))
  {
    match input.key
    case KeyCreationFailed(e) =>
      JobResult(PostResult(Append(o, "\n" + e.stackTrace), Some(AdbKeyException(e))), false, false, 0)
    case KeyCreated =>
      var primary := RunClient(o, input.primary);
      if Contains(primary.log, PERMISSION_DENIED_MARKER) then
        var diagnosed := PostResult(Append(primary, DIAGNOSTIC), None);
        var secondary := RunClient(diagnosed, input.secondary);
        assert secondary.log == o.log + RunText(input.primary) + (DIAGNOSTIC + RunText(input.secondary)) by {
          assert secondary.log == ((o.log + RunText(input.primary)) + DIAGNOSTIC) + RunText(input.secondary);
        }
        PrefixTransitive(o.posts, primary.posts, diagnosed.posts);
        PrefixTransitive(o.posts, diagnosed.posts, secondary.posts);
        JobResult(secondary, true, true, 2)
      else
        assert primary.log + "" == primary.log;
        JobResult(primary, false, true, 1)
  }

  /** `startAdb`: the header is appended and a success posted before the job runs, so the
      job's log opens with the header right after whatever the log held before. */
  function StartAdb(o: Output, input: JobInput): (r: JobResult)
    ensures Extends(o, r.out) && o.log + HEADER <= r.out.log
    ensures |r.out.posts| > |o.posts| && r.out.posts[|o.posts|] == Resource(Success, o.log + HEADER)
    ensures input.key.KeyCreated? ==>
      (r.fallbackRan <==> Contains(o.log + HEADER + RunText(input.primary), PERMISSION_DENIED_MARKER))
    ensures input.key.KeyCreationFailed? ==> !r.fallbackRan && r.clientsCreated == 0
    ensures r.stopRequested <==> input.key.KeyCreated?
    ensures r.clientsCreated <= 2
    // the job ends by posting its outcome: the key error, or the last client run's status
    ensures EndsWith(r.out, JobStatus(input, r.fallbackRan))
  {
    var started := PostResult(Append(o, HEADER), None);
    var r := Job(started, input);
    PrefixTransitive(o.log, started.log, r.out.log);
    PrefixTransitive(o.posts, started.posts, r.out.posts);
    r
  }

  /** Appending text keeps every posted log a prefix of the log. */
  lemma MonotoneAppend(o: Output, text: string)
    requires Monotone(o)
    ensures Monotone(Append(o, text))
  {
    forall i | 0 <= i < |o.posts|
      ensures o.posts[i].data <= o.log + text
    {
      PrefixTransitive(o.posts[i].data, o.log, o.log + text);
    }
  }

  /** Posting the current log keeps the posted logs ordered. */
  lemma MonotonePost(o: Output, throwable: Option<Cause>)
    requires Monotone(o)
    ensures Monotone(PostResult(o, throwable))
  {
  }

  lemma {:induction false} MonotoneDeliver(o: Output, chunks: seq<string>)
    requires Monotone(o)
    ensures Monotone(DeliverChunks(o, chunks))
    decreases |chunks|
  {
    if |chunks| > 0 {
      MonotoneAppend(o, chunks[0]);
      MonotonePost(Append(o, chunks[0]), None);
      MonotoneDeliver(PostResult(Append(o, chunks[0]), None), chunks[1..]);
    }
  }

  lemma MonotoneRunClient(o: Output, run: ClientRun)
    requires Monotone(o)
    ensures Monotone(RunClient(o, run))
  {
    MonotoneDeliver(o, run.chunks);
    if run.failure.Some? {
      var d := DeliverChunks(o, run.chunks);
      MonotoneAppend(d, "\n" + run.failure.value.stackTrace);
      MonotonePost(Append(d, "\n" + run.failure.value.stackTrace), Some(Thrown(run.failure.value)));
    }
  }

  /** Observers of the output never see text disappear: across a whole `startAdb`, every
      posted log is a prefix of every later posted log and of the final log. */
  lemma MonotoneStartAdb(o: Output, input: JobInput)
    requires Monotone(o)
    ensures Monotone(StartAdb(o, input).out)
  {
    MonotoneAppend(o, HEADER);
    var started := PostResult(Append(o, HEADER), None);
    MonotonePost(Append(o, HEADER), None);
    match input.key
    case KeyCreationFailed(e) =>
      MonotoneAppend(started, "\n" + e.stackTrace);
      MonotonePost(Append(started, "\n" + e.stackTrace), Some(AdbKeyException(e)));
    case KeyCreated =>
      MonotoneRunClient(started, input.primary);
      var primary := RunClient(started, input.primary);
      if Contains(primary.log, PERMISSION_DENIED_MARKER) {
        MonotoneAppend(primary, DIAGNOSTIC);
        MonotonePost(Append(primary, DIAGNOSTIC), None);
        MonotoneRunClient(PostResult(Append(primary, DIAGNOSTIC), None), input.secondary);
      }
  }

  /** A key failure ends the job before any client exists: the client runs are never
      consulted, whatever they would have produced. */
  lemma KeyFailureIgnoresClients(o: Output, e: Throwable, p1: ClientRun, q1: ClientRun, p2: ClientRun, q2: ClientRun)
    ensures StartAdb(o, JobInput(KeyCreationFailed(e), p1, q1)) == StartAdb(o, JobInput(KeyCreationFailed(e), p2, q2))
  {
  }

  /** Without the marker after the primary run, the secondary run is never consulted. */
  lemma NoMarkerIgnoresSecondary(o: Output, primary: ClientRun, q1: ClientRun, q2: ClientRun)
    requires !Contains(o.log + HEADER + RunText(primary), PERMISSION_DENIED_MARKER)
    ensures StartAdb(o, JobInput(KeyCreated, primary, q1)) == StartAdb(o, JobInput(KeyCreated, primary, q2))
  {
  }

  /** The marker is searched in the whole log, not only in the primary output: once an
      earlier job left it in the log, every later job with a key falls back. */
  lemma EarlierMarkerForcesFallback(o: Output, input: JobInput)
    requires Contains(o.log, PERMISSION_DENIED_MARKER) && input.key.KeyCreated?
    ensures StartAdb(o, input).fallbackRan
  {
    assert o.log + HEADER + RunText(input.primary) == o.log + (HEADER + RunText(input.primary));
    ContainsAppend(o.log, HEADER + RunText(input.primary), PERMISSION_DENIED_MARKER);
  }

  /** A fresh log, a key, and a primary command that prints "ok\n" and ends cleanly: the
      log is the header followed by that output and the last result posted is a success. */
  lemma PlainSuccessScenario(secondary: ClientRun)
    ensures var r := StartAdb(Output("", []), JobInput(KeyCreated, ClientRun(["ok\n"], None), secondary));
      && r.out.log == "Starting with wireless adb...\n\nok\n"
      && !r.fallbackRan && r.stopRequested && r.clientsCreated == 1
      && r.out.posts == [Resource(Success, HEADER), Resource(Success, HEADER + "ok\n")]
  {
    var log := HEADER + RunText(ClientRun(["ok\n"], None));
    assert Concat(["ok\n"]) == "ok\n";
    assert !Contains(log, PERMISSION_DENIED_MARKER);
    var started := PostResult(Append(Output("", []), HEADER), None);
    var r := DeliverChunks(started, ["ok\n"]);
    assert ["ok\n"][..1] == ["ok\n"];
    assert r.posts[1] == Resource(Success, HEADER + "ok\n");
    assert "" + HEADER == HEADER;
    assert r.posts[0] == started.posts[0] == Resource(Success, HEADER);
    assert |r.posts| == 2;
    assert Job(started, JobInput(KeyCreated, ClientRun(["ok\n"], None), secondary)).out == r;
    assert r.posts == [Resource(Success, HEADER), Resource(Success, HEADER + "ok\n")];
  }

  /** A primary run whose output reports the marker: the primary output, the diagnostic
      lines and then the secondary output follow the header in this order, and the
      fallback runs once. */
  lemma FallbackScenario(before: string, after: string, secondary: ClientRun)
    ensures var primary := ClientRun([before + PERMISSION_DENIED_MARKER + after], None);
      var r := StartAdb(Output("", []), JobInput(KeyCreated, primary, secondary));
      && r.fallbackRan && r.clientsCreated == 2
      && r.out.log == HEADER + before + PERMISSION_DENIED_MARKER + after + DIAGNOSTIC + RunText(secondary)
  {
    var chunk := before + PERMISSION_DENIED_MARKER + after;
    var primary := ClientRun([chunk], None);
    assert Concat([chunk]) == chunk;
    var log := "" + HEADER + RunText(primary);
    assert log == (HEADER + before) + PERMISSION_DENIED_MARKER + after;
    assert OccursAt(log, PERMISSION_DENIED_MARKER, |HEADER + before|) by {
      assert log[|HEADER + before|..|HEADER + before| + |PERMISSION_DENIED_MARKER|] == PERMISSION_DENIED_MARKER;
    }
  }
}

=== FILE: starter_lifecycle.dfy ===
/** The self-starter service as an event-driven machine: the platform delivers network,
    port, ping and destroy events one at a time, and `Step` applies the matching
    callback. The machine runs either the callbacks as written or the snapshot-once
    callbacks (`OnAvailableOnce`, `OnDestroyRestoring`); the lemmas at the end contrast
    the two on single calls. */
module StarterLifecycle {

  import opened Strings
  import opened StarterJob
  import opened SelfStarterService

  /** What the platform can deliver to a running service. A network or port event carries
      the outcome of the job it would start (key creation and the two client runs); the
      static port is what the system property holds before SDK level R. */
  datatype Event =
    | NetworkAvailable(staticPort: int, job: JobInput)
    | PortDiscovered(port: Option<int>, job: JobInput)
    | ServerStateChanged(running: bool)
    | Destroy

  /** Which network and destroy callbacks the machine runs: the source's own, or the
      versions that take the snapshot once and restore it only when it was taken. */
  datatype Callbacks = AsWritten | SnapshotOnce

  /** One event. A destroyed service has no callbacks registered and a crashed process
      runs nothing, so both ignore every event; a port reaches the service only while its
      observer is registered. */
  function Step(s: Service, e: Event, c: Callbacks): (r: Service)
    ensures r.granted == s.granted && r.dynamicDiscovery == s.dynamicDiscovery
    ensures Extends(s.out, r.out)
    ensures s.destroyed || s.crashed ==> r == s
    ensures e.Destroy? ==> r.destroyed || r.crashed
  {
    if s.destroyed || s.crashed then
      s
    else
      match e
      case NetworkAvailable(staticPort, job) =>
        if c == AsWritten then OnAvailable(s, staticPort, job) else OnAvailableOnce(s, staticPort, job)
      case PortDiscovered(port, job) => if s.discovery == Listening then OnPort(s, port, job) else s
      case ServerStateChanged(running) => s.(serverRunning := running)
      case Destroy => if c == AsWritten then OnDestroy(s) else OnDestroyRestoring(s)
  }

  /** The events applied in order. */
  function Run(s: Service, events: seq<Event>, c: Callbacks): Service
    decreases |events|
  {
    if |events| == 0 then s else Step(Run(s, events[..|events| - 1], c), events[|events| - 1], c)
  }

  lemma RunSnoc(s: Service, events: seq<Event>, e: Event, c: Callbacks)
    ensures Run(s, events + [e], c) == Step(Run(s, events, c), e, c)
  {
    assert (events + [e])[..|events|] == events;
  }

  /** Facts every reachable state keeps: observers' view only grows, every job handed
      `startAdb` a positive port (and one in range when it came from discovery), and no job
      fell back more than once. */
  ghost predicate Consistent(s: Service)
  {
    && Monotone(s.out)
    && |s.ports| == s.jobs
    && s.fallbackRuns <= s.jobs
    && (forall i :: 0 <= i < |s.ports| ==> 1 <= s.ports[i])
    && (s.dynamicDiscovery ==> forall i :: 0 <= i < |s.ports| ==> s.ports[i] <= MAX_PORT)
  }

  lemma StartAdbStepConsistent(s: Service, port: int, job: JobInput)
    requires Consistent(s) && 1 <= port && (s.dynamicDiscovery ==> port <= MAX_PORT)
    ensures Consistent(StartAdbStep(s, port, job))
  {
    MonotoneStartAdb(s.out, job);
    var r := StartAdbStep(s, port, job);
    assert forall i :: 0 <= i < |s.ports| ==> r.ports[i] == s.ports[i];
  }

  lemma EnableConsistent(s: Service, saved: string, staticPort: int, job: JobInput)
    requires Consistent(s)
    ensures Consistent(EnableWirelessAdb(s, saved, staticPort, job))
  {
    var prepared := s.(snapshot := saved, captured := true,
                       settings := s.settings[ADB_WIFI_ENABLED := "0"]
                                             [ENABLED_ACCESSIBILITY_SERVICES := WithAccessibilityComponent(saved)]
                                             [ACCESSIBILITY_ENABLED := "1"]);
    if !s.dynamicDiscovery && staticPort > 0 {
      StartAdbStepConsistent(prepared, staticPort, job);
    }
  }

  lemma NetworkConsistent(s: Service, staticPort: int, job: JobInput, c: Callbacks)
    requires Consistent(s)
    ensures Consistent(Step(s, NetworkAvailable(staticPort, job), c))
  {
    if !s.destroyed && !s.crashed && s.granted {
      if c == SnapshotOnce && s.captured {
        EnableConsistent(s, s.snapshot, staticPort, job);
      } else if ENABLED_ACCESSIBILITY_SERVICES in s.settings {
        EnableConsistent(s, s.settings[ENABLED_ACCESSIBILITY_SERVICES], staticPort, job);
      }
    }
  }

  lemma PortConsistent(s: Service, port: Option<int>, job: JobInput)
    requires Consistent(s)
    ensures Consistent(OnPort(s, port, job))
  {
    if port.Some? && 1 <= port.value <= MAX_PORT && !s.serverRunning {
      StartAdbStepConsistent(s, port.value, job);
    }
  }

  lemma StepConsistent(s: Service, e: Event, c: Callbacks)
    requires Consistent(s)
    ensures Consistent(Step(s, e, c))
  {
    if !s.destroyed && !s.crashed {
      match e
      case NetworkAvailable(staticPort, job) => NetworkConsistent(s, staticPort, job, c);
      case PortDiscovered(port, job) => PortConsistent(s, port, job);
      case ServerStateChanged(_) =>
      case Destroy =>
    }
  }

  lemma {:induction false} RunConsistent(s: Service, events: seq<Event>, c: Callbacks)
    requires Consistent(s)
    ensures Consistent(Run(s, events, c))
    decreases |events|
  {
    if |events| > 0 {
      RunConsistent(s, events[..|events| - 1], c);
      StepConsistent(Run(s, events[..|events| - 1], c), events[|events| - 1], c);
    }
  }

  /** A later state continues the output of every earlier state of the same run. */
  lemma {:induction false} RunExtends(s: Service, events: seq<Event>, c: Callbacks, k: nat)
    requires k <= |events|
    ensures Extends(Run(s, events[..k], c).out, Run(s, events, c).out)
    decreases |events|
  {
    if k == |events| {
      assert events[..k] == events;
    } else {
      var n := |events| - 1;
      assert events[..n][..k] == events[..k];
      RunExtends(s, events[..n], c, k);
      var mid := Run(s, events[..n], c).out;
      PrefixTransitive(Run(s, events[..k], c).out.log, mid.log, Run(s, events, c).out.log);
      PrefixTransitive(Run(s, events[..k], c).out.posts, mid.posts, Run(s, events, c).out.posts);
    }
  }

  /** Over any sequence of events from a fresh service, with either callbacks: the log is
      only ever appended to, no posted result is withdrawn, posted logs grow, every port
      handed to `startAdb` is positive (and at most 65535 under discovery), and fallbacks
      never outnumber jobs. */
  lemma {:induction false} TraceInvariants(dynamicDiscovery: bool, granted: bool, running: bool,
                                           settings: map<string, string>, events: seq<Event>, c: Callbacks)
    ensures var r := Run(Started(dynamicDiscovery, granted, running, settings), events, c);
      && Consistent(r)
      && forall k :: 0 <= k <= |events| ==>
           Extends(Run(Started(dynamicDiscovery, granted, running, settings), events[..k], c).out, r.out)
  {
    var s0 := Started(dynamicDiscovery, granted, running, settings);
    RunConsistent(s0, events, c);
    forall k | 0 <= k <= |events|
      ensures Extends(Run(s0, events[..k], c).out, Run(s0, events, c).out)
    {
      RunExtends(s0, events, c, k);
    }
  }

  /** The enabled accessibility services as `getString` reports them: `None` for null. */
  function Listed(settings: map<string, string>): Option<string>
  {
    if ENABLED_ACCESSIBILITY_SERVICES in settings then Some(settings[ENABLED_ACCESSIBILITY_SERVICES]) else None
  }

  /** What the snapshot-once cleanup keeps, for the services `original` listed at start.
      An unset list is never captured and stays unset (the first network callback throws
      on it); a set list is captured unchanged and is back in place once destroyed. Either
      way, a service that stopped running has wireless debugging switched off. */
  ghost predicate Restorable(s: Service, original: Option<string>)
  {
    && s.granted
    && (s.destroyed || s.crashed ==> ADB_WIFI_ENABLED in s.settings && s.settings[ADB_WIFI_ENABLED] == "0")
    && match original
       case None => !s.captured && Listed(s.settings) == None
       case Some(o) =>
         && ENABLED_ACCESSIBILITY_SERVICES in s.settings
         && (s.captured ==> s.snapshot == o)
         && (!s.captured || s.destroyed ==> s.settings[ENABLED_ACCESSIBILITY_SERVICES] == o)
         && (s.crashed ==> s.destroyed)
  }

  lemma StepRestorable(s: Service, e: Event, original: Option<string>)
    requires Restorable(s, original)
    ensures Restorable(Step(s, e, SnapshotOnce), original)
  {
  }

  lemma {:induction false} RunRestorable(s: Service, events: seq<Event>, original: Option<string>)
    requires Restorable(s, original)
    ensures Restorable(Run(s, events, SnapshotOnce), original)
    decreases |events|
  {
    if |events| > 0 {
      RunRestorable(s, events[..|events| - 1], original);
      StepRestorable(Run(s, events[..|events| - 1], SnapshotOnce), events[|events| - 1], original);
    }
  }

  /** The cleanup guarantee of the snapshot-once callbacks: with the permission, whatever
      happens before the service is destroyed (repeated networks, any ports, failed keys,
      failed or falling-back jobs), the enabled accessibility services end exactly as they
      were before the service started (set to the same value, or still unset) and wireless
      debugging ends switched off. A set list ends with the service destroyed; an unset one
      may instead end with the process crashed at the first network callback. */
  lemma {:induction false} DestroyRestoresSettings(dynamicDiscovery: bool, running: bool,
                                                     settings: map<string, string>, events: seq<Event>)
    ensures var r := Run(Started(dynamicDiscovery, true, running, settings), events + [Destroy], SnapshotOnce);
      && Listed(r.settings) == Listed(settings)
      && ADB_WIFI_ENABLED in r.settings && r.settings[ADB_WIFI_ENABLED] == "0"
      && (r.destroyed || r.crashed)
      && (ENABLED_ACCESSIBILITY_SERVICES in settings ==> r.destroyed)
  {
    var s0 := Started(dynamicDiscovery, true, running, settings);
    var original := Listed(settings);
    RunRestorable(s0, events, original);
    RunSnoc(s0, events, Destroy, SnapshotOnce);
    StepRestorable(Run(s0, events, SnapshotOnce), Destroy, original);
  }

  /** What a service without the permission can ever be: no setting written, no port
      handed to `startAdb`, nothing logged or posted, discovery never started. */
  ghost predicate Inert(s: Service, settings: map<string, string>)
  {
    && !s.granted && s.settings == settings
    && s.ports == [] && s.jobs == 0 && s.fallbackRuns == 0
    && s.out == Output("", []) && s.discovery != Listening
  }

  lemma {:induction false} RunInert(s: Service, events: seq<Event>, settings: map<string, string>, c: Callbacks)
    requires Inert(s, settings)
    ensures Inert(Run(s, events, c), settings)
    decreases |events|
  {
    if |events| > 0 {
      RunInert(s, events[..|events| - 1], settings, c);
    }
  }

  /** Without the secure-settings permission, no event sequence writes a setting, opens a
      client or logs anything, whichever callbacks run. */
  lemma WithoutPermissionNothingHappens(dynamicDiscovery: bool, running: bool,
                                          settings: map<string, string>, events: seq<Event>, c: Callbacks)
    ensures var r := Run(Started(dynamicDiscovery, false, running, settings), events, c);
      r.settings == settings && r.ports == [] && r.out == Output("", [])
  {
    RunInert(Started(dynamicDiscovery, false, running, settings), events, settings, c);
  }

  /** Once destroyed (or crashed while being destroyed), the service ignores everything:
      destroying twice is the same as destroying once. */
  lemma {:induction false} DestroyIsFinal(s: Service, events: seq<Event>, c: Callbacks)
    ensures Run(Step(s, Destroy, c), events, c) == Step(s, Destroy, c)
    decreases |events|
  {
    if |events| > 0 {
      DestroyIsFinal(s, events[..|events| - 1], c);
    }
  }

  /** The observer stays registered after the first port: while the server does not answer,
      every further valid port starts another job. */
  lemma LaterPortStartsAnotherJob(s: Service, p1: int, p2: int, j1: JobInput, j2: JobInput, c: Callbacks)
    requires s.discovery == Listening && !s.serverRunning && !s.destroyed && !s.crashed
    requires 1 <= p1 <= MAX_PORT && 1 <= p2 <= MAX_PORT
    ensures var r := Run(s, [PortDiscovered(Some(p1), j1), PortDiscovered(Some(p2), j2)], c);
      r.jobs == s.jobs + 2 && r.ports == s.ports + [p1, p2]
  {
    var events := [PortDiscovered(Some(p1), j1), PortDiscovered(Some(p2), j2)];
    var first := StartAdbStep(s, p1, j1);
    assert Run(s, events[..1], c) == first by {
      assert events[..1][..0] == [];
    }
    assert first.discovery == Listening && !first.serverRunning && !first.destroyed && !first.crashed;
    assert Run(s, events, c) == StartAdbStep(first, p2, j2);
  }

  /** A key that cannot be created: the wrapped error is posted, no client is created, and
      since the job returns before `stopSelf` the service keeps waiting for ports. */
  lemma KeyFailureKeepsServiceWaiting(settings: map<string, string>, e: Throwable, p: ClientRun, q: ClientRun,
                                      c: Callbacks)
    requires ENABLED_ACCESSIBILITY_SERVICES in settings
    ensures var s0 := Started(true, true, false, settings);
      var r := Run(s0, [NetworkAvailable(0, JobInput(KeyCreated, p, q)),
                        PortDiscovered(Some(40001), JobInput(KeyCreationFailed(e), p, q))], c);
      && !r.stopped && r.discovery == Listening && r.ports == [40001] && r.fallbackRuns == 0
      && r.out.log == HEADER + "\n" + e.stackTrace
      && |r.out.posts| == 2 && r.out.posts[1] == Resource(Error(AdbKeyException(e)), r.out.log)
  {
    var s0 := Started(true, true, false, settings);
    var events := [NetworkAvailable(0, JobInput(KeyCreated, p, q)),
                   PortDiscovered(Some(40001), JobInput(KeyCreationFailed(e), p, q))];
    var listening := OnAvailable(s0, 0, JobInput(KeyCreated, p, q));
    assert Run(s0, events[..1], c) == listening by {
      assert events[..1][..0] == [];
    }
    assert listening.discovery == Listening && listening.out == Output("", []) && listening.ports == [];
    assert !listening.stopped && !listening.crashed && !listening.destroyed && !listening.serverRunning;
    var job := StartAdb(Output("", []), JobInput(KeyCreationFailed(e), p, q));
    assert "" + HEADER == HEADER;
    assert job.out.log == HEADER + "\n" + e.stackTrace;
    assert !job.stopRequested && !job.fallbackRan;
    assert Run(s0, events, c) == StartAdbStep(listening, 40001, JobInput(KeyCreationFailed(e), p, q));
  }

  // Findings: the snapshot as written.

  /** As written, a second network callback reads back the value the first one wrote, so
      the teardown writes back a list that still starts with this app's service. */
  lemma RepeatedNetworkKeepsServiceEnabled(settings: map<string, string>, staticPort1: int, staticPort2: int, job: JobInput)
    requires ENABLED_ACCESSIBILITY_SERVICES in settings
    ensures var original := settings[ENABLED_ACCESSIBILITY_SERVICES];
      var s0 := Started(true, true, false, settings);
      var r := OnDestroy(OnAvailable(OnAvailable(s0, staticPort1, job), staticPort2, job));
      && r.settings[ENABLED_ACCESSIBILITY_SERVICES] == WithAccessibilityComponent(original)
      && r.settings[ENABLED_ACCESSIBILITY_SERVICES] != original
  {
  }

  /** The same two callbacks with the snapshot taken once restore the original list. */
  lemma RepeatedNetworkRestoresOnce(settings: map<string, string>, staticPort1: int, staticPort2: int, job: JobInput)
    requires ENABLED_ACCESSIBILITY_SERVICES in settings
    ensures var s0 := Started(true, true, false, settings);
      var r := OnDestroyRestoring(OnAvailableOnce(OnAvailableOnce(s0, staticPort1, job), staticPort2, job));
      r.settings[ENABLED_ACCESSIBILITY_SERVICES] == settings[ENABLED_ACCESSIBILITY_SERVICES]
  {
  }

  /** With a single network callback, the teardown as written does restore the list. */
  lemma SingleNetworkRestores(dynamicDiscovery: bool, settings: map<string, string>, port: int, job: JobInput)
    requires ENABLED_ACCESSIBILITY_SERVICES in settings
    ensures var r := OnDestroy(OnAvailable(Started(dynamicDiscovery, true, false, settings), port, job));
      && r.settings[ENABLED_ACCESSIBILITY_SERVICES] == settings[ENABLED_ACCESSIBILITY_SERVICES]
      && r.settings[ADB_WIFI_ENABLED] == "0"
  {
  }

  /** As written, a service destroyed before any network callback writes the initial empty
      snapshot over the enabled accessibility services. */
  lemma EarlyDestroyClearsServices(settings: map<string, string>)
    requires ENABLED_ACCESSIBILITY_SERVICES in settings && settings[ENABLED_ACCESSIBILITY_SERVICES] != ""
    ensures var r := OnDestroy(Started(false, true, false, settings));
      r.settings[ENABLED_ACCESSIBILITY_SERVICES] == "" != settings[ENABLED_ACCESSIBILITY_SERVICES]
  {
  }

  /** Restoring only a captured snapshot leaves the list untouched in the same case. */
  lemma EarlyDestroyKeepsServices(settings: map<string, string>)
    requires ENABLED_ACCESSIBILITY_SERVICES in settings
    ensures var r := OnDestroyRestoring(Started(false, true, false, settings));
      r.settings[ENABLED_ACCESSIBILITY_SERVICES] == settings[ENABLED_ACCESSIBILITY_SERVICES]
  {
  }
}

=== FILE: strings.dfy ===
/** Text helpers shared by the model: an optional value, chunk concatenation and
    substring search with the semantics of Kotlin's `CharSequence.contains`. */
module Strings {

  /** A value that may be absent (Kotlin's nullable types). */
  datatype Option<+T> = None | Some(value: T)

  /** The chunks joined in the order they are given. */
  function Concat(chunks: seq<string>): string
  {
    if |chunks| == 0 then "" else chunks[0] + Concat(chunks[1..])
  }

  /** `sub` occurs in `s` starting at index `i`. */
  ghost predicate OccursAt(s: string, sub: string, i: int)
  {
    0 <= i && i + |sub| <= |s| && s[i..i + |sub|] == sub
  }

  /** An occurrence in the tail of `s` is an occurrence in `s`, one index later. */
  lemma OccursInTail(s: string, sub: string, j: int)
    requires |s| > 0 && OccursAt(s[1..], sub, j)
    ensures OccursAt(s, sub, j + 1)
  {
    assert s[1..][j..j + |sub|] == s[j + 1..j + 1 + |sub|];
  }

  /** An occurrence in `s` that is not at the front is an occurrence in its tail. */
  lemma OccursLater(s: string, sub: string, i: int)
    requires OccursAt(s, sub, i) && !(sub <= s)
    ensures i > 0 && OccursAt(s[1..], sub, i - 1)
  {
    assert s[1..][i - 1..i - 1 + |sub|] == s[i..i + |sub|];
  }

  /** Substring search: true exactly when `sub` occurs somewhere in `s`
      (so the empty string occurs in every string). */
  function Contains(s: string, sub: string): (b: bool)
    ensures b <==> exists i :: OccursAt(s, sub, i)
    decreases |s|
  {
    if sub <= s then
      assert OccursAt(s, sub, 0);
      true
    else if |s| == 0 then
      assert forall i :: !OccursAt(s, sub, i);
      false
    else
      var rest := Contains(s[1..], sub);
      assert rest ==> exists i :: OccursAt(s, sub, i) by {
        if rest {
          var j :| OccursAt(s[1..], sub, j);
          OccursInTail(s, sub, j);
        }
      }
      assert (exists i :: OccursAt(s, sub, i)) ==> rest by {
        if exists i :: OccursAt(s, sub, i) {
          var i :| OccursAt(s, sub, i);
          OccursLater(s, sub, i);
        }
      }
      rest
  }

  /** Text once present stays present when more text is appended after it. */
  lemma ContainsAppend(s: string, t: string, sub: string)
    requires Contains(s, sub)
    ensures Contains(s + t, sub)
  {
    var i :| OccursAt(s, sub, i);
    assert (s + t)[i..i + |sub|] == s[i..i + |sub|];
    assert OccursAt(s + t, sub, i);
  }
}
